=== FILE: README.md ===
# Productivity dashboard: owner-scoped task store and access gate

This project models the core of a small multi-user task-tracking server
(`app.js`, an Express/MySQL application) in Dafny. Every route is one SQL
statement plus a little JavaScript, so the model is functional: the
`tasks` and `users` tables are sequences of rows, and each route is a pure
function from the table before the statement to the table after it, or to
the rows and figures it answers with.

Modules, following the program's structure:

- `Results` (`results.dfy`): `Option` (also SQL NULL / an absent JSON field) and `Result`.
- `Seqs` (`seqs.dfy`): what the statements reduce to: `Filter` (a WHERE with no ORDER BY),
  `Count` (COUNT / SUM of a condition), JavaScript `split` on one character with its
  inverse `Join`, and substring search (`LIKE '%q%'`).
- `Tasks` (`tasks.dfy`): the `tasks` table, the `taskSchema` enums and validation, and
  the create, list, update, delete and search statements, with their
  "nothing else changes" and isolation lemmas.
- `Dashboard` (`dashboard.dfy`): the per-user and global aggregates and the completion rate.
- `Access` (`access.dfy`): the `auth` and `adminOnly` middlewares.
- `Users` (`users.dfy`): the `users` table with signup and login.
- `Routes` (`routes.dfy`): one protected request end to end, gate first, then the route.

Outside inputs are parameters: `today` stands for `CURDATE()` (dates are day
numbers), `nextId` / `id` for the auto-increment value, `verify` for
`jwt.verify` with the server secret, `sign` for `jwt.sign`, `compare` for
`bcrypt.compare`, `digest` for the output of `bcrypt.hash`, and `isEmail` for
zod's email check.

The dashboards state their completion rate through `Dashboard.CompletionRate`,
whose contract carries the exact `rate * total == 100 * completed` law.

Stored task columns are optional (`None` is SQL NULL) because the update
route writes the raw request body without validation. The model follows
SQL's three-valued logic where it shows. A NULL status is neither Completed
nor overdue. A NULL deadline is never overdue. A NULL title or description
never matches a search.

In these places the model follows what the code does:

- `auth` takes the second space-separated piece of the Authorization header and never
  checks that the first word is `Bearer` (`Access.SchemeIgnored`).
- Roles are any string: signup stores whatever role the body carries, defaulting a
  missing or empty one to `"user"`. Only the exact string `"admin"` passes `adminOnly`.
- Update stores priority and status values outside the enums (`Tasks.UpdateBreaksEnums`).
  Absent fields become NULL, not empty strings.
- Search treats an empty parameter like an absent one (JavaScript truthiness).

## Model

| member | source | states |
|---|---|---|
| Tasks.ParsePriority | app.js:69 | accepts exactly the names "Low", "Medium", "High", each mapping back to its enum value |
| Tasks.ParseStatus | app.js:70 | accepts exactly "Pending", "In Progress", "Completed", each mapping back to its enum value |
| Tasks.ParseTask | app.js:66-73 | a body validates iff title, description and deadline are present and priority and status are enum names; the parsed task carries exactly the body's values |
| Tasks.Create | app.js:143-156 | appends exactly one row after the unchanged table; it is owned by the caller, carries the given id, its title, description and deadline are the validated body's, tags default to "", and priority and status are enum names |
| Tasks.CreateListsLast | app.js:143-169 | the created row is the last row of its owner's list, after the owner's earlier rows unchanged |
| Tasks.CreateIsolation | app.js:143-156 | creating for one user leaves every other user's list unchanged |
| Tasks.CreateKeepsInvariants | app.js:141-156 | with a fresh id, create keeps ids unique and keeps every priority and status inside the enums |
| Tasks.ListByOwner | app.js:163-169 | returns exactly the rows whose owner is the caller, each as many times as in the table; no other user's row appears |
| Tasks.Update | app.js:171-188 | same length; ids and owners never change; the row whose id and owner both match gets all six fields from the body; every other row is unchanged |
| Tasks.UpdateNoMatch | app.js:173-175 | an unknown id, or one owned by someone else, leaves the table unchanged |
| Tasks.UpdateIsolation | app.js:171-188 | updating as one user leaves every other user's list unchanged |
| Tasks.UpdateKeepsUniqueIds | app.js:173-175 | update keeps ids unique |
| Tasks.UpdateBreaksEnums | app.js:177-182 | a table inside the enums can leave them through update, since the body is written unvalidated |
| Tasks.Delete | app.js:190-196 | the result holds exactly the rows of the table that are not the caller's row with that id |
| Tasks.DeleteNoMatch | app.js:192 | an unknown id, or one owned by someone else, leaves the table unchanged |
| Tasks.DeleteExactlyOne | app.js:192 | with unique ids, deleting the caller's row at position i gives the table without position i, order kept |
| Tasks.DeleteIsolation | app.js:190-196 | deleting as one user leaves every other user's list unchanged |
| Tasks.DeleteKeepsInvariants | app.js:192 | delete keeps ids unique if they were, and keeps the enums if they held; each holds without the other |
| Tasks.Search | app.js:198-220 | returns exactly the caller's rows satisfying every given filter: q in title or description, exact status, exact priority |
| Tasks.SearchWithinList | app.js:201-217 | search equals the caller's list narrowed by the filter conjunction, in the same order |
| Tasks.SearchNoFilters | app.js:204-217 | with every parameter absent or empty, search equals the caller's list |
| Seqs.ContainsIffOccurs | app.js:205-206 | the substring test holds iff q occurs at some position of the text |
| Seqs.Split | app.js:77 | split yields at least one piece, no piece holds the separator, and joining the pieces gives back the header |
| Seqs.SplitJoin | app.js:77 | split undoes join on separator-free pieces, so the two are inverses |
| Seqs.FilterAppend | app.js:163-169 | a filtered table keeps store order: the filter of a concatenation is the concatenation of the filters |
| Seqs.CountOfFilterConj | app.js:227-230 | counting a condition over the rows a WHERE keeps equals counting the conjunction over the whole table |
| Dashboard.CompletionRate | app.js:235-238 | rate is exactly 0 when total is 0, otherwise rate times total equals 100 times completed; it lies between 0 and 100 |
| Dashboard.Aggregate | app.js:225-238 | total is the number of rows, completed is at most total, overdue is at most total minus completed, and the rate obeys the completion-rate law |
| Dashboard.CompletedOrOverdue | app.js:227-228 | no row is both Completed and overdue, so the two counts together are at most the row count |
| Dashboard.AggregateCounts | app.js:226-228 | completed counts exactly the Completed rows; overdue counts exactly the non-Completed rows with a deadline before today |
| Dashboard.UserDashboard | app.js:222-243 | the total counts the caller's rows in the table; completed counts exactly the caller's Completed rows and overdue exactly the caller's non-Completed rows due before today; both obey the aggregate bounds and the rate obeys the completion-rate law |
| Dashboard.AdminDashboard | app.js:251-270 | the total is every row of the table; completed counts every Completed row and overdue every non-Completed row due before today, whoever owns it; overdue is at most total minus completed; the rate obeys the completion-rate law |
| Dashboard.UserWithinAdmin | app.js:222-270 | each user's total, completed and overdue are at most the global ones of the admin dashboard |
| Dashboard.CreateCounts | app.js:222-243 | creating a task adds one to its owner's total, and one to completed exactly when it is created Completed |
| Dashboard.OverdueScenario | app.js:228 | a Pending task due 2020-01-01 seen on 2025-01-01 gives total 1, completed 0, overdue 1, rate 0 |
| Access.HeaderToken | app.js:77 | there is a token iff the header holds a space, and the token holds no space |
| Access.HeaderTokenIsSecondWord | app.js:77 | the token is the text between the first and second space, whatever the first word |
| Access.Authenticate | app.js:75-83 | succeeds iff the header is present, has a second piece, and that piece verifies, yielding the verified claims; every failure is the single Unauthorized |
| Access.AdminOnly | app.js:85-90 | admits exactly role "admin", unchanged; any other role is Forbidden |
| Access.SchemeIgnored | app.js:77-78 | any first word authenticates exactly as "Bearer" does |
| Users.DefaultRole | app.js:99 | a missing or empty role becomes "user", any other string is kept |
| Users.Utf16Length | app.js:57 | the JavaScript length of a string lies between its character count and twice that, and equals the character count iff no character lies outside the Basic Multilingual Plane |
| Users.ThreeEmojiMeetMinimum | app.js:57 | a password of three emoji has JavaScript length 6, so it meets the minimum |
| Users.Signup | app.js:92-108 | a body missing name, email or password, with a malformed email, or with a password under 6 UTF-16 code units is Invalid; a valid body succeeds iff the email is not taken, and a taken email is EmailExists; success appends one user with the body's name and email, the digest and the defaulted role, after the unchanged table |
| Users.FindByEmail | app.js:114-121 | finds a row with that email iff one exists |
| Users.FindByEmailUnique | app.js:114-121 | with unique emails the lookup returns the one row with that email |
| Users.Login | app.js:110-137 | a body missing email or password, or with a malformed email, is Invalid; otherwise an unknown email and a wrong password give the same InvalidCredentials; success iff the user exists and the password matches, answering a token signed over that user's id and role |
| Users.SignupKeepsUniqueEmails | app.js:97-101 | signup keeps emails unique |
| Users.SignupThenLogin | app.js:92-131 | after a signup, logging in with the same credentials returns the token for the new user's id and role |
| Users.SignupLoginAuthenticate | app.js:75-131 | when verify accepts what sign issued, the login token sent as "Bearer token" authenticates as the new user |
| Routes.Dispatch | app.js:139-270 | an invalid create body is a 400 that writes nothing; a valid one keeps every existing row and appends the validated row owned by the caller with the next id; update and delete apply their caller-scoped statement and answer success; list answers exactly the caller's rows, search the caller's matching rows, and the dashboard the caller's aggregate; an admin route answers 403 iff the role is not "admin", and no other route answers 403 or 401; reads and refusals leave the table unchanged |
| Routes.Handle | app.js:139-270 | no verified identity gives 401 with the table untouched, and 401 is given only then; a verified request reaches its route as the verified caller; a non-admin on an admin route gets 403, and 403 happens only on admin routes; reads never change the table; list and search answer only the caller's rows |
| Routes.HandleIsolation | app.js:139-196 | no request changes the list of a user it is not authenticated as |
| Routes.ForeignIdIsNoOp | app.js:171-196 | update or delete of an id that is not the caller's answers success and leaves the table unchanged |
| Routes.AdminSeesAll | app.js:245-270 | an admin gets the whole table from the admin list, and the aggregate over every row, whose total is the row count, from the admin dashboard |
| Routes.HandleKeepsUniqueIds | app.js:139-196 | every request keeps ids unique when the id handed to create is fresh |

## Left out

- The MySQL connection, schema creation, Express routing, CORS, the root route and `app.listen` (app.js:1-52, 272-274): I/O and framework wiring.
- bcrypt hashing and comparison and JWT signing and verification: foreign cryptographic calls, modelled as function parameters. No property of bcrypt or JWT is assumed except where a lemma states it as a hypothesis.
- zod details: email syntax is the `isEmail` parameter, and JSON values of the wrong type (a number where a string is expected) are not represented. Every string field of a task, signup or login body is either a string or absent.
- Tasks.ColumnContains: plain substring match. It does not model the collation's case- and accent-insensitivity, or `%` and `_` inside `q` acting as wildcards.
- Tasks.Matches: status and priority filters use exact string equality. MySQL's default collation is case- and accent-insensitive, so it would also match values that differ only in letter case or accents. Whether trailing spaces are ignored depends on the collation's pad attribute.
- Dashboard.IsCompleted: exact equality with "Completed", for the same collation reason. Dashboard.IsOverdue inherits this: a status "completed" written by update equals 'Completed' under the collation and is never overdue in the source, but the model counts it as overdue once its deadline has passed.
- Users.FindByEmail: compares emails by exact string equality. `WHERE email = ?` compares under MySQL's case- and accent-insensitive collation, so Users.Login rejects a differently cased email that the source accepts.
- Users.Signup: a duplicate email is exact string equality. It does not model the case-insensitive UNIQUE key. Other insert failures (a value longer than its VARCHAR column) also answer "Email already exists" in the source and are not modelled.
- Auto-increment id generation: ids are parameters. Uniqueness is stated as the `UniqueIds` invariant and needs a fresh id for create.
- The path parameter `:id` is an integer in the model. MySQL's coercion of a non-numeric string is not modelled.
- `created_at` / `updated_at` timestamps, and MySQL's conversion of the `deadline` string to a DATE. Deadlines are day numbers, and `today` stands for `CURDATE()` with no timezone.
- Create answers "Task created" even when the insert fails. The model always inserts after validation.
- Store errors: the model has no store errors. In the source, list and search answer with an empty body when their query fails. The two dashboards throw inside the query callback on `result[0]` and send no answer at all.
- Update and delete answer success even when their statement fails, for example a title longer than its VARCHAR(100) column under strict mode. The model always applies the statement.
- Dashboard.CompletionRate: exact real arithmetic instead of JavaScript floating-point division.
- Dashboard.Aggregate: mysql2 returns `SUM` as a string. `SUM` is NULL over zero rows, and also when every row's condition is NULL, for example when every status is NULL. The model uses the integer, and 0 in both NULL cases.
- Node's trimming of header whitespace and Express's parsing of repeated query parameters into arrays.
- Concurrency between requests: each route is a single statement, so requests are modelled one after another.

=== FILE: access.dfy ===
/** The two middlewares in front of the task routes: `auth`, which turns the
    Authorization header into the caller's identity, and `adminOnly`. */
module Access {
  import opened Results
  import opened Seqs

  /** The claims of a session token: the user's id and role. */
  datatype Identity = Identity(id: int, role: string)

  /** The two ways the gate turns a request away. */
  datatype Denial =
    | Unauthorized   // 401 {message: "Unauthorized"}
    | Forbidden      // 403 {message: "Admin access only"}

  /** `header.split(" ")[1]`: the second space-separated piece, if there is
      one. The first piece is never looked at, so the scheme word need not
      be "Bearer". */
  function HeaderToken(header: string): (r: Option<string>)
    ensures r.Some? <==> ' ' in header
    ensures r.Some? ==> ' ' !in r.value
  {
    var parts := Split(header, ' ');
    if ' ' in header then
      Some(parts[1])
    else
      SplitNoSeparator(header, ' ');
      None
  }

  /** The token is the text between the first and the second space (or the
      end of the header), whatever the first word is. */
  lemma HeaderTokenIsSecondWord(scheme: string, token: string, rest: Option<string>)
    requires ' ' !in scheme && ' ' !in token
    ensures var header := if rest.Some? then scheme + " " + token + " " + rest.value
                          else scheme + " " + token;
            HeaderToken(header) == Some(token)
  {
    if rest.Some? {
      assert scheme + " " + token + " " + rest.value == scheme + [' '] + (token + [' '] + rest.value);
      SplitAtFirst(scheme, ' ', token + [' '] + rest.value);
      SplitAtFirst(token, ' ', rest.value);
    } else {
      assert scheme + " " + token == scheme + [' '] + token;
      SplitAtFirst(scheme, ' ', token);
      SplitNoSeparator(token, ' ');
    }
    assert ' ' in scheme + " " + token;
  }

  /** `auth`: succeeds with the verified claims when the header is present,
      has a second space-separated piece, and that piece verifies; every
      other case is the one Unauthorized outcome. `verify` stands for
      `jwt.verify` with the server's secret. */
  function Authenticate(header: Option<string>, verify: string -> Option<Identity>): (r: Result<Identity, Denial>)
    ensures r.Err? ==> r.error == Unauthorized
    ensures r.Ok? <==> header.Some? && ' ' in header.value
                       && verify(HeaderToken(header.value).value).Some?
    ensures r.Ok? ==> Some(r.value) == verify(HeaderToken(header.value).value)
  {
    if header.None? then Err(Unauthorized)
    else
      match HeaderToken(header.value)
      case None => Err(Unauthorized)
      case Some(token) =>
        match verify(token)
        case None => Err(Unauthorized)
        case Some(who) => Ok(who)
  }

  /** `adminOnly`: admits exactly the role string "admin"; every other role
      is Forbidden. */
  function AdminOnly(who: Identity): (r: Result<Identity, Denial>)
    ensures r.Ok? <==> who.role == "admin"
    ensures r.Ok? ==> r.value == who
    ensures r.Err? ==> r.error == Forbidden
  {
    if who.role != "admin" then Err(Forbidden) else Ok(who)
  }

  /** The scheme word is ignored: "Bearer t" and any other "w t" reach the
      verifier with the same token. */
  lemma SchemeIgnored(scheme: string, token: string, verify: string -> Option<Identity>)
    requires ' ' !in scheme && ' ' !in token
    ensures Authenticate(Some(scheme + " " + token), verify) == Authenticate(Some("Bearer " + token), verify)
  {
    HeaderTokenIsSecondWord(scheme, token, None);
    HeaderTokenIsSecondWord("Bearer", token, None);
    assert "Bearer " + token == "Bearer" + " " + token;
  }
}

=== FILE: dashboard.dfy ===
/** The aggregate queries behind GET /dashboard and GET /admin/dashboard. */
module Dashboard {
  import opened Results
  import opened Seqs
  import opened Tasks

  /** The JSON object both dashboards answer with. */
  datatype Stats = Stats(total: nat, completed: nat, overdue: nat, rate: real)

  /** `status='Completed'`; a NULL status is not Completed. */
  predicate IsCompleted(t: Task)
  {
    t.status == Some("Completed")
  }

  /** `status!='Completed' AND deadline < CURDATE()`: a NULL status or a
      NULL deadline makes the condition NULL, which SUM does not count. */
  predicate IsOverdue(t: Task, today: Day)
  {
    && t.status.Some? && t.status.value != "Completed"
    && t.deadline.Some? && t.deadline.value < today
  }

  /** `completed_tasks / total_tasks * 100`, or exactly 0 when there are no
      tasks, in exact arithmetic. */
  function CompletionRate(completed: nat, total: nat): (r: real)
    requires completed <= total
    ensures total == 0 ==> r == 0.0
    ensures total > 0 ==> r * (total as real) == 100.0 * (completed as real)
    ensures 0.0 <= r <= 100.0
  {
    if total == 0 then 0.0
    else (completed as real / total as real) * 100.0
  }

  /** No row is both Completed and overdue, so the two counts together
      never exceed the number of rows. */
  lemma CompletedOrOverdue(rows: seq<Task>, today: Day)
    ensures Count(rows, IsCompleted) + Count(rows, t => IsOverdue(t, today)) <= |rows|
  {
    CountDisjoint(rows, IsCompleted, t => IsOverdue(t, today));
  }

  /** The aggregate SELECT over a set of rows, with the completion rate the
      callback adds. */
  function Aggregate(rows: seq<Task>, today: Day): (r: Stats)
    ensures r.total == |rows|
    ensures r.completed <= r.total
    ensures r.overdue <= r.total - r.completed
    ensures r.rate == CompletionRate(r.completed, r.total)
  {
    var completed := Count(rows, IsCompleted);
    var overdue := Count(rows, t => IsOverdue(t, today));
    CompletedOrOverdue(rows, today);
    var rate := CompletionRate(completed, |rows|);
    Stats(|rows|, completed, overdue, rate)
  }

  /** GET /dashboard: the aggregate over the caller's rows. The total is
      the number of rows in the table the caller owns, and the counts obey
      the same bounds and rate law as any aggregate. */
  function UserDashboard(s: Store, uid: int, today: Day): (r: Stats)
    ensures r.total == Count(s, t => OwnedBy(t, uid))
    ensures r.completed == Count(s, t => OwnedBy(t, uid) && IsCompleted(t))
    ensures r.overdue == Count(s, t => OwnedBy(t, uid) && IsOverdue(t, today))
    ensures r.completed <= r.total && r.overdue <= r.total - r.completed
    ensures r.rate == CompletionRate(r.completed, r.total)
  {
    CountIsFilterLength(s, t => OwnedBy(t, uid));
    CountOfFilterConj(s, t => OwnedBy(t, uid), IsCompleted, t => OwnedBy(t, uid) && IsCompleted(t));
    CountOfFilterConj(s, t => OwnedBy(t, uid), t => IsOverdue(t, today),
                      t => OwnedBy(t, uid) && IsOverdue(t, today));
    Aggregate(ListByOwner(s, uid), today)
  }

  /** GET /admin/dashboard: the same aggregate with no owner filter, so the
      total is every row of the table and the completed and overdue counts
      take every row into account, whoever owns it. */
  function AdminDashboard(s: Store, today: Day): (r: Stats)
    ensures r.total == |s|
    ensures r.completed == Count(s, IsCompleted)
    ensures r.overdue == Count(s, t => IsOverdue(t, today))
    ensures r.overdue <= r.total - r.completed
    ensures r.rate == CompletionRate(r.completed, r.total)
  {
    Aggregate(s, today)
  }

  /** `completed` counts exactly the Completed rows and `overdue` exactly
      the rows that are not Completed and whose deadline is before today. */
  lemma AggregateCounts(rows: seq<Task>, today: Day)
    ensures Aggregate(rows, today).completed
         == |Filter(rows, IsCompleted)|
    ensures Aggregate(rows, today).overdue
         == |Filter(rows, t => IsOverdue(t, today))|
    ensures forall t :: t in Filter(rows, t => IsOverdue(t, today)) <==>
      t in rows && t.status.Some? && t.status.value != "Completed"
      && t.deadline.Some? && t.deadline.value < today
  {
    CountIsFilterLength(rows, IsCompleted);
    CountIsFilterLength(rows, t => IsOverdue(t, today));
  }

  /** Each user's figures are bounded by the global ones. */
  lemma UserWithinAdmin(s: Store, uid: int, today: Day)
    ensures UserDashboard(s, uid, today).total <= AdminDashboard(s, today).total
    ensures UserDashboard(s, uid, today).completed <= AdminDashboard(s, today).completed
    ensures UserDashboard(s, uid, today).overdue <= AdminDashboard(s, today).overdue
  {
    CountOfFilter(s, t => OwnedBy(t, uid), IsCompleted);
    CountOfFilter(s, t => OwnedBy(t, uid), t => IsOverdue(t, today));
  }

  /** Creating a task adds one to its owner's total, and one to the
      completed count exactly when it is created Completed. */
  lemma CreateCounts(s: Store, owner: int, id: int, t: NewTask, today: Day)
    ensures UserDashboard(Create(s, owner, id, t), owner, today).total
         == UserDashboard(s, owner, today).total + 1
    ensures UserDashboard(Create(s, owner, id, t), owner, today).completed
         == UserDashboard(s, owner, today).completed + (if t.status == Completed then 1 else 0)
  {
    CreateListsLast(s, owner, id, t);
    CountAppend(ListByOwner(s, owner), [NewRow(id, owner, t)], IsCompleted);
  }

  /** A Pending task due 2020-01-01, counted on 2025-01-01, is one overdue
      task out of one, none completed, rate 0 (day numbers since
      1970-01-01). */
  lemma OverdueScenario()
    ensures UserDashboard(Create([], 1, 1, NewTask("A", "", Low, Pending, 18262, None)), 1, 20089)
         == Stats(1, 0, 1, 0.0)
  {
    var s := Create([], 1, 1, NewTask("A", "", Low, Pending, 18262, None));
    var rows := ListByOwner(s, 1);
    CreateListsLast([], 1, 1, NewTask("A", "", Low, Pending, 18262, None));
    assert rows == [s[0]];
    assert IsOverdue(rows[0], 20089) && !IsCompleted(rows[0]);
  }
}

=== FILE: results.dfy ===
/** Small failure-carrying datatypes shared by the rest of the model. */
module Results {

  /** An optional value; for a stored column, `None` is SQL NULL, and for a
      request field it is a field the client did not send. */
  datatype Option<T> = None | Some(value: T) {

    /** The value, or `default` when there is none. */
    function GetOr(default: T): (r: T)
      ensures Some? ==> r == value
      ensures None? ==> r == default
    {
      match this
      case Some(v) => v
      case None => default
    }
  }

  /** Either a value or the error that prevented it. */
  datatype Result<T, E> = Ok(value: T) | Err(error: E)
}

=== FILE: routes.dfy ===
/** The protected routes end to end: the `auth` middleware, `adminOnly` on
    the two admin routes, then the route's statement over the task table.
    This is where the trust boundary is stated: nothing reaches the table
    without a verified identity, and no identity can change another
    user's rows. */
module Routes {
  import opened Results
  import opened Tasks
  import opened Dashboard
  import opened Access

  /** The protected routes, with their path parameters and bodies. */
  datatype Route =
    | CreateTask(body: TaskBody)           // POST /tasks
    | ListTasks                            // GET /tasks
    | UpdateTask(id: int, body: TaskBody)  // PUT /tasks/:id
    | DeleteTask(id: int)                  // DELETE /tasks/:id
    | SearchTasks(query: Query)            // GET /tasks/search
    | UserStats                            // GET /dashboard
    | AdminTasks                           // GET /admin/tasks
    | AdminStats                           // GET /admin/dashboard

  /** The routes that also pass through `adminOnly`. */
  predicate IsAdminRoute(route: Route)
  {
    route.AdminTasks? || route.AdminStats?
  }

  /** The routes that write to the table. */
  predicate IsWrite(route: Route)
  {
    route.CreateTask? || route.UpdateTask? || route.DeleteTask?
  }

  /** A successful response body. */
  datatype Reply = Message(text: string) | Rows(rows: seq<Task>) | Summary(stats: Stats)

  /** What the client receives. */
  datatype Response =
    | Answer(reply: Reply)      // 200
    | Refused(denial: Denial)   // 401 or 403
    | BadRequest                // 400, the zod message

  function StatusCode(r: Response): int
  {
    match r
    case Answer(_) => 200
    case Refused(Unauthorized) => 401
    case Refused(Forbidden) => 403
    case BadRequest => 400
  }

  /** What the server takes from outside a request: the token verifier,
      the server's current date, and the id auto-increment hands out next. */
  datatype Env = Env(verify: string -> Option<Identity>, today: Day, nextId: int)

  /** The table after the request and the response sent. */
  datatype Outcome = Outcome(store: Store, response: Response)

  /** A route run on behalf of an authenticated caller: a create with a
      body `taskSchema` rejects is a 400 that writes nothing; update and
      delete run their statement scoped to the caller and answer success;
      list answers exactly the caller's rows and search the caller's
      matching rows; the dashboard answers the caller's aggregate; an admin
      route is refused with 403 exactly when the caller's role is not
      "admin", and 403 comes from nowhere else; reads and refusals leave
      the table as it was. */
  function Dispatch(s: Store, who: Identity, route: Route, env: Env): (r: Outcome)
    ensures route.CreateTask? ==> (r.response == BadRequest <==> ParseTask(route.body).None?)
    ensures route.CreateTask? && ParseTask(route.body).Some? ==>
      && |r.store| == |s| + 1 && r.store[..|s|] == s
      && r.store[|s|] == NewRow(env.nextId, who.id, ParseTask(route.body).value)
      && r.store[|s|].owner == who.id
    ensures route.UpdateTask? ==>
      r == Outcome(Update(s, who.id, route.id, route.body), Answer(Message("Task updated")))
    ensures route.DeleteTask? ==>
      r == Outcome(Delete(s, who.id, route.id), Answer(Message("Task deleted")))
    ensures route.ListTasks? ==>
      r.response.Answer? && r.response.reply.Rows?
      && (forall t :: t in r.response.reply.rows <==> t in s && t.owner == who.id)
      && r.response.reply.rows == ListByOwner(s, who.id)
    ensures route.SearchTasks? ==> r.response == Answer(Rows(Search(s, who.id, route.query)))
    ensures route.UserStats? ==> r.response == Answer(Summary(UserDashboard(s, who.id, env.today)))
    ensures IsAdminRoute(route) ==> (StatusCode(r.response) == 403 <==> who.role != "admin")
    ensures StatusCode(r.response) == 403 ==> IsAdminRoute(route)
    ensures StatusCode(r.response) != 401
    ensures !IsWrite(route) || r.response.Refused? || r.response.BadRequest? ==> r.store == s
    ensures route.ListTasks? || route.SearchTasks? ==>
      r.response.Answer? && r.response.reply.Rows?
      && forall t :: t in r.response.reply.rows ==> t.owner == who.id
  {
    match route
    case CreateTask(body) =>
      (match ParseTask(body)
       case None => Outcome(s, BadRequest)
       case Some(t) => Outcome(Create(s, who.id, env.nextId, t), Answer(Message("Task created"))))
    case ListTasks => Outcome(s, Answer(Rows(ListByOwner(s, who.id))))
    case UpdateTask(id, body) => Outcome(Update(s, who.id, id, body), Answer(Message("Task updated")))
    case DeleteTask(id) => Outcome(Delete(s, who.id, id), Answer(Message("Task deleted")))
    case SearchTasks(f) => Outcome(s, Answer(Rows(Search(s, who.id, f))))
    case UserStats => Outcome(s, Answer(Summary(UserDashboard(s, who.id, env.today))))
    case AdminTasks =>
      (match AdminOnly(who)
       case Err(d) => Outcome(s, Refused(d))
       case Ok(_) => Outcome(s, Answer(Rows(s))))
    case AdminStats =>
      match AdminOnly(who)
      case Err(d) => Outcome(s, Refused(d))
      case Ok(_) => Outcome(s, Answer(Summary(AdminDashboard(s, env.today))))
  }

  /** One protected request: without a verified identity the answer is 401
      and the table is untouched; with one, the request reaches its route
      as that caller; a non-admin on an admin route gets 403 and no rows,
      and 403 happens on no other route; only the three write routes ever
      change the table; and the rows a caller sees through the list and
      search routes are the caller's own. */
  function Handle(s: Store, header: Option<string>, route: Route, env: Env): (r: Outcome)
    ensures Authenticate(header, env.verify).Err? ==> r == Outcome(s, Refused(Unauthorized))
    ensures StatusCode(r.response) == 401 <==> Authenticate(header, env.verify).Err?
    ensures Authenticate(header, env.verify).Ok? ==>
      r == Dispatch(s, Authenticate(header, env.verify).value, route, env)
    ensures r.response == Refused(Forbidden) ==> IsAdminRoute(route)
    ensures Authenticate(header, env.verify).Ok? && IsAdminRoute(route)
            && Authenticate(header, env.verify).value.role != "admin"
            ==> r == Outcome(s, Refused(Forbidden))
    ensures !IsWrite(route) ==> r.store == s
    ensures r.response.Refused? ==> r.store == s
    ensures Authenticate(header, env.verify).Ok? && (route.ListTasks? || route.SearchTasks?)
            ==> r.response.Answer? && r.response.reply.Rows?
                && forall t :: t in r.response.reply.rows ==> t.owner == Authenticate(header, env.verify).value.id
  {
    match Authenticate(header, env.verify)
    case Err(d) => Outcome(s, Refused(d))
    case Ok(who) => Dispatch(s, who, route, env)
  }

  /** No request changes the rows of a user it is not authenticated as:
      another user's list is the same before and after. */
  lemma HandleIsolation(s: Store, header: Option<string>, route: Route, env: Env, other: int)
    requires Authenticate(header, env.verify).Err? || Authenticate(header, env.verify).value.id != other
    ensures ListByOwner(Handle(s, header, route, env).store, other) == ListByOwner(s, other)
  {
    match Authenticate(header, env.verify)
    case Err(_) =>
    case Ok(who) =>
      match route
      case CreateTask(body) =>
        if ParseTask(body).Some? {
          CreateIsolation(s, who.id, env.nextId, ParseTask(body).value, other);
        }
      case UpdateTask(id, body) => UpdateIsolation(s, who.id, id, body, other);
      case DeleteTask(id) => DeleteIsolation(s, who.id, id, other);
      case _ =>
  }

  /** A request whose id belongs to no row of the caller (unknown, or
      another user's) still answers with the success message but leaves
      the table unchanged, for update and delete alike. */
  lemma ForeignIdIsNoOp(s: Store, header: Option<string>, route: Route, env: Env)
    requires route.UpdateTask? || route.DeleteTask?
    requires Authenticate(header, env.verify).Ok?
    requires forall i :: 0 <= i < |s| ==> !Targets(s[i], route.id, Authenticate(header, env.verify).value.id)
    ensures Handle(s, header, route, env).store == s
    ensures Handle(s, header, route, env).response.Answer?
  {
    var who := Authenticate(header, env.verify).value;
    if route.UpdateTask? {
      UpdateNoMatch(s, who.id, route.id, route.body);
    } else {
      DeleteNoMatch(s, who.id, route.id);
    }
  }

  /** The admin routes give an admin the whole table and the global
      aggregate. */
  lemma AdminSeesAll(s: Store, header: Option<string>, env: Env)
    requires Authenticate(header, env.verify).Ok?
    requires Authenticate(header, env.verify).value.role == "admin"
    ensures Handle(s, header, AdminTasks, env).response == Answer(Rows(s))
    ensures Handle(s, header, AdminStats, env).response == Answer(Summary(AdminDashboard(s, env.today)))
    ensures Handle(s, header, AdminStats, env).response.reply.stats.total == |s|
  {
  }

  /** The table invariants survive every request: ids stay unique as long as
      the id handed out for a create is fresh. */
  lemma HandleKeepsUniqueIds(s: Store, header: Option<string>, route: Route, env: Env)
    requires UniqueIds(s) && FreshId(s, env.nextId)
    ensures UniqueIds(Handle(s, header, route, env).store)
  {
    match Authenticate(header, env.verify)
    case Err(_) =>
    case Ok(who) =>
      match route
      case CreateTask(body) =>
        if ParseTask(body).Some? {
          CreateKeepsInvariants(s, who.id, env.nextId, ParseTask(body).value);
        }
      case UpdateTask(id, body) => UpdateKeepsUniqueIds(s, who.id, id, body);
      case DeleteTask(id) => DeleteKeepsInvariants(s, who.id, id);
      case _ =>
  }
}

=== FILE: seqs.dfy ===
/** Sequence operations the SQL statements and the header parsing reduce to:
    a WHERE filter, a COUNT/SUM over a predicate, JavaScript's
    `String.prototype.split` on one character, and substring search. */
module Seqs {

  /** The elements of `s` that satisfy `p`, in their original order: what a
      `SELECT ... WHERE p` returns from a table with no ORDER BY. */
  function Filter<T(!new)>(s: seq<T>, p: T -> bool): (r: seq<T>)
    ensures |r| <= |s|
    ensures forall x :: x in r <==> x in s && p(x)
  {
    if |s| == 0 then []
    else
      assert s == [s[0]] + s[1..];
      if p(s[0]) then [s[0]] + Filter(s[1..], p) else Filter(s[1..], p)
  }

  /** The number of elements of `s` that satisfy `p`: `COUNT(*)` under a
      WHERE, or `SUM(p)` over a boolean column expression. */
  function Count<T(!new)>(s: seq<T>, p: T -> bool): (r: nat)
    ensures r <= |s|
    ensures r == 0 <==> forall x :: x in s ==> !p(x)
    ensures r == |s| <==> forall x :: x in s ==> p(x)
  {
    if |s| == 0 then 0
    else
      assert s == [s[0]] + s[1..];
      (if p(s[0]) then 1 else 0) + Count(s[1..], p)
  }

  /** Filtering keeps each selected element as often as it occurs and
      drops every other. */
  lemma {:induction false} FilterMultiset<T(!new)>(s: seq<T>, p: T -> bool)
    ensures forall x :: multiset(Filter(s, p))[x] == if p(x) then multiset(s)[x] else 0
  {
    if |s| > 0 {
      FilterMultiset(s[1..], p);
      assert s == [s[0]] + s[1..];
    }
  }

  /** Filtering distributes over concatenation, which is what "in store
      order" means: a row appended to the table appears last in the result. */
  lemma {:induction false} FilterAppend<T(!new)>(a: seq<T>, b: seq<T>, p: T -> bool)
    ensures Filter(a + b, p) == Filter(a, p) + Filter(b, p)
  {
    if |a| == 0 {
      assert a + b == b;
    } else {
      assert (a + b)[1..] == a[1..] + b;
      FilterAppend(a[1..], b, p);
    }
  }

  /** A filter every element passes is the identity. */
  lemma {:induction false} FilterAll<T(!new)>(s: seq<T>, p: T -> bool)
    requires forall x :: x in s ==> p(x)
    ensures Filter(s, p) == s
  {
    if |s| > 0 {
      assert s[0] in s;
      assert forall i :: 0 <= i < |s[1..]| ==> s[1..][i] == s[i + 1];
      FilterAll(s[1..], p);
    }
  }

  /** Filters that agree on the elements of `s` select the same subsequence. */
  lemma {:induction false} FilterSame<T(!new)>(s: seq<T>, p: T -> bool, q: T -> bool)
    requires forall x :: x in s ==> p(x) == q(x)
    ensures Filter(s, p) == Filter(s, q)
  {
    if |s| > 0 {
      assert s[0] in s;
      assert forall i :: 0 <= i < |s[1..]| ==> s[1..][i] == s[i + 1];
      FilterSame(s[1..], p, q);
    }
  }

  /** Two filters in a row are one filter on the conjunction. */
  lemma {:induction false} FilterFilter<T(!new)>(s: seq<T>, p: T -> bool, q: T -> bool, pq: T -> bool)
    requires forall x :: pq(x) == (p(x) && q(x))
    ensures Filter(Filter(s, p), q) == Filter(s, pq)
  {
    if |s| > 0 {
      FilterFilter(s[1..], p, q, pq);
    }
  }

  /** A filter that rejects exactly the element at `i` removes just that
      element. */
  lemma {:induction false} FilterDropOne<T(!new)>(s: seq<T>, i: int, p: T -> bool)
    requires 0 <= i < |s| && !p(s[i])
    requires forall j :: 0 <= j < |s| && j != i ==> p(s[j])
    ensures Filter(s, p) == s[..i] + s[i + 1..]
  {
    if i == 0 {
      forall x | x in s[1..] ensures p(x) {
        var j :| 0 <= j < |s[1..]| && s[1..][j] == x;
        assert s[j + 1] == x;
      }
      FilterAll(s[1..], p);
    } else {
      FilterDropOne(s[1..], i - 1, p);
      assert p(s[0]) && Filter(s, p) == [s[0]] + Filter(s[1..], p);
      assert s[1..][..i - 1] == s[1..i];
      assert s[1..][i..] == s[i + 1..];
      assert [s[0]] + s[1..i] == s[..i];
    }
  }

  /** Counting is the length of the filtered sequence. */
  lemma {:induction false} CountIsFilterLength<T(!new)>(s: seq<T>, p: T -> bool)
    ensures Count(s, p) == |Filter(s, p)|
  {
    if |s| > 0 {
      CountIsFilterLength(s[1..], p);
    }
  }

  /** Counts of two predicates that never hold together add up to at most
      the length. */
  lemma {:induction false} CountDisjoint<T(!new)>(s: seq<T>, p: T -> bool, q: T -> bool)
    requires forall x :: !(p(x) && q(x))
    ensures Count(s, p) + Count(s, q) <= |s|
  {
    if |s| > 0 {
      CountDisjoint(s[1..], p, q);
    }
  }

  /** Counting over a filtered sequence never gives more than over the whole. */
  lemma {:induction false} CountOfFilter<T(!new)>(s: seq<T>, p: T -> bool, q: T -> bool)
    ensures Count(Filter(s, p), q) <= Count(s, q)
  {
    if |s| > 0 {
      CountOfFilter(s[1..], p, q);
    }
  }

  /** Counting `q` over the elements that pass `p` is counting their
      conjunction over the whole sequence. */
  lemma {:induction false} CountOfFilterConj<T(!new)>(s: seq<T>, p: T -> bool, q: T -> bool, pq: T -> bool)
    requires forall x :: pq(x) == (p(x) && q(x))
    ensures Count(Filter(s, p), q) == Count(s, pq)
  {
    if |s| > 0 {
      CountOfFilterConj(s[1..], p, q, pq);
    }
  }

  /** Counting distributes over concatenation. */
  lemma {:induction false} CountAppend<T(!new)>(a: seq<T>, b: seq<T>, p: T -> bool)
    ensures Count(a + b, p) == Count(a, p) + Count(b, p)
  {
    if |a| == 0 {
      assert a + b == b;
    } else {
      assert (a + b)[1..] == a[1..] + b;
      CountAppend(a[1..], b, p);
    }
  }

  /** The pieces joined back with the separator between them. */
  function Join(parts: seq<string>, sep: char): string
  {
    if |parts| == 0 then ""
    else if |parts| == 1 then parts[0]
    else parts[0] + [sep] + Join(parts[1..], sep)
  }

  /** JavaScript's `s.split(sep)` for a one-character separator: always at
      least one piece, no piece contains the separator, and joining the
      pieces with the separator gives back `s`. */
  function Split(s: string, sep: char): (r: seq<string>)
    ensures |r| >= 1
    ensures forall i :: 0 <= i < |r| ==> sep !in r[i]
    ensures Join(r, sep) == s
  {
    if |s| == 0 then [""]
    else
      var rest := Split(s[1..], sep);
      if s[0] == sep then
        assert s == [sep] + s[1..];
        [""] + rest
      else
        assert s == [s[0]] + s[1..];
        assert forall i :: 1 <= i < |rest| ==> ([[s[0]] + rest[0]] + rest[1..])[i] == rest[i];
        [[s[0]] + rest[0]] + rest[1..]
  }

  /** A string without the separator splits into itself. */
  lemma {:induction false} SplitNoSeparator(s: string, sep: char)
    requires sep !in s
    ensures Split(s, sep) == [s]
  {
    if |s| > 0 {
      SplitNoSeparator(s[1..], sep);
    }
  }

  /** Splitting at the first separator: a separator-free head becomes the
      first piece and the rest is split on its own. */
  lemma {:induction false} SplitAtFirst(head: string, sep: char, tail: string)
    requires sep !in head
    ensures Split(head + [sep] + tail, sep) == [head] + Split(tail, sep)
  {
    if |head| == 0 {
      assert head + [sep] + tail == [sep] + tail;
      assert ([sep] + tail)[1..] == tail;
    } else {
      assert (head + [sep] + tail)[1..] == head[1..] + [sep] + tail;
      SplitAtFirst(head[1..], sep, tail);
      assert [head[0]] + head[1..] == head;
    }
  }

  /** Split undoes Join on separator-free pieces, so together with the
      contract of Split the two are inverse to each other. */
  lemma {:induction false} SplitJoin(parts: seq<string>, sep: char)
    requires |parts| >= 1
    requires forall i :: 0 <= i < |parts| ==> sep !in parts[i]
    ensures Split(Join(parts, sep), sep) == parts
  {
    if |parts| == 1 {
      SplitNoSeparator(parts[0], sep);
    } else {
      SplitJoin(parts[1..], sep);
      SplitAtFirst(parts[0], sep, Join(parts[1..], sep));
    }
  }

  /** Whether `q` occurs in `text` starting at position `i`. */
  predicate OccursAt(text: string, q: string, i: int)
  {
    0 <= i && i + |q| <= |text| && text[i..i + |q|] == q
  }

  /** Whether `q` occurs in `text` as a contiguous run: the plain reading
      of SQL `text LIKE '%q%'`. */
  predicate Contains(text: string, q: string)
  {
    q <= text || (|text| > 0 && Contains(text[1..], q))
  }

  /** Contains agrees with the positional definition of a substring. */
  lemma {:induction false} ContainsIffOccurs(text: string, q: string)
    ensures Contains(text, q) <==> exists i :: OccursAt(text, q, i)
  {
    if q <= text {
      assert OccursAt(text, q, 0);
    }
    if exists i :: OccursAt(text, q, i) {
      var i :| OccursAt(text, q, i);
      if i == 0 {
        assert q <= text;
      } else {
        assert OccursAt(text[1..], q, i - 1) by {
          assert text[1..][i - 1..i - 1 + |q|] == text[i..i + |q|];
        }
        ContainsIffOccurs(text[1..], q);
      }
    }
    if |text| > 0 && Contains(text[1..], q) {
      ContainsIffOccurs(text[1..], q);
      var i :| OccursAt(text[1..], q, i);
      assert text[1..][i..i + |q|] == text[i + 1..i + 1 + |q|];
      assert OccursAt(text, q, i + 1);
    }
  }
}

=== FILE: tasks.dfy ===
/** The `tasks` table and the routes that read and write it. Each route is
    one SQL statement, modelled as a pure function from the table before the
    statement to the table after it (or to the rows it returns). */
module Tasks {
  import opened Results
  import opened Seqs

  /** A calendar date as a day number; the server's CURDATE() is passed in
      as `today` wherever it is used. */
  type Day = int

  /** The `priority` values `taskSchema` accepts. */
  datatype Priority = Low | Medium | High

  /** The `status` values `taskSchema` accepts. */
  datatype Status = Pending | InProgress | Completed

  function PriorityName(p: Priority): string
  {
    match p
    case Low => "Low"
    case Medium => "Medium"
    case High => "High"
  }

  function StatusName(s: Status): string
  {
    match s
    case Pending => "Pending"
    case InProgress => "In Progress"
    case Completed => "Completed"
  }

  /** The priority enum check of `taskSchema`: accepts exactly the three names. */
  function ParsePriority(s: string): (r: Option<Priority>)
    ensures forall p :: r == Some(p) <==> PriorityName(p) == s
  {
    if s == "Low" then Some(Low)
    else if s == "Medium" then Some(Medium)
    else if s == "High" then Some(High)
    else None
  }

  /** The status enum check of `taskSchema`: accepts exactly the three names. */
  function ParseStatus(s: string): (r: Option<Status>)
    ensures forall st :: r == Some(st) <==> StatusName(st) == s
  {
    if s == "Pending" then Some(Pending)
    else if s == "In Progress" then Some(InProgress)
    else if s == "Completed" then Some(Completed)
    else None
  }

  /** One row of `tasks`. The six mutable columns are optional because the
      update route writes whatever the request body holds, absent fields
      included, and an absent field is stored as SQL NULL (`None`). */
  datatype Task = Task(
    id: int,
    owner: int,
    title: Option<string>,
    description: Option<string>,
    priority: Option<string>,
    status: Option<string>,
    deadline: Option<Day>,
    tags: Option<string>)

  type Store = seq<Task>

  /** A JSON request body for a task, field by field; `None` is a field the
      client left out. */
  datatype TaskBody = TaskBody(
    title: Option<string>,
    description: Option<string>,
    priority: Option<string>,
    status: Option<string>,
    deadline: Option<Day>,
    tags: Option<string>)

  /** A body that passed `taskSchema`. */
  datatype NewTask = NewTask(
    title: string,
    description: string,
    priority: Priority,
    status: Status,
    deadline: Day,
    tags: Option<string>)

  /** `taskSchema.parse`: every field but `tags` is required, and priority
      and status must be one of their enum names. */
  function ParseTask(b: TaskBody): (r: Option<NewTask>)
    ensures r.Some? <==>
      && b.title.Some? && b.description.Some? && b.deadline.Some?
      && b.priority.Some? && ParsePriority(b.priority.value).Some?
      && b.status.Some? && ParseStatus(b.status.value).Some?
    ensures r.Some? ==>
      && Some(r.value.title) == b.title
      && Some(r.value.description) == b.description
      && Some(PriorityName(r.value.priority)) == b.priority
      && Some(StatusName(r.value.status)) == b.status
      && Some(r.value.deadline) == b.deadline
      && r.value.tags == b.tags
  {
    if b.title.None? || b.description.None? || b.deadline.None?
       || b.priority.None? || b.status.None? then None
    else
      match (ParsePriority(b.priority.value), ParseStatus(b.status.value))
      case (Some(p), Some(s)) =>
        Some(NewTask(b.title.value, b.description.value, p, s, b.deadline.value, b.tags))
      case _ => None
  }

  /** Every row carries a distinct id (the table's primary key). */
  predicate UniqueIds(s: Store)
  {
    forall i, j :: 0 <= i < j < |s| ==> s[i].id != s[j].id
  }

  /** No row uses id `id`. */
  predicate FreshId(s: Store, id: int)
  {
    forall t :: t in s ==> t.id != id
  }

  /** The row's priority and status are `taskSchema` enum names. */
  predicate EnumsOk(t: Task)
  {
    && t.priority.Some? && ParsePriority(t.priority.value).Some?
    && t.status.Some? && ParseStatus(t.status.value).Some?
  }

  /** Every row's priority and status is one of the `taskSchema` enum names. */
  predicate EnumsValid(s: Store)
  {
    forall t :: t in s ==> EnumsOk(t)
  }

  /** The row `INSERT INTO tasks` writes for a validated body; `tags`
      defaults to the empty string. */
  function NewRow(id: int, owner: int, t: NewTask): Task
  {
    Task(id, owner, Some(t.title), Some(t.description), Some(PriorityName(t.priority)),
         Some(StatusName(t.status)), Some(t.deadline), Some(t.tags.GetOr("")))
  }

  /** POST /tasks after validation: appends exactly one row, owned by the
      caller, and leaves every existing row where it was. `id` is the
      auto-increment value the database hands out. */
  function Create(s: Store, owner: int, id: int, t: NewTask): (r: Store)
    ensures |r| == |s| + 1 && r[..|s|] == s
    ensures r[|s|].id == id && r[|s|].owner == owner
    ensures r[|s|].title == Some(t.title) && r[|s|].description == Some(t.description)
    ensures r[|s|].deadline == Some(t.deadline)
    ensures r[|s|].tags == Some(if t.tags.Some? then t.tags.value else "")
    ensures r[|s|].priority.Some? && ParsePriority(r[|s|].priority.value) == Some(t.priority)
    ensures r[|s|].status.Some? && ParseStatus(r[|s|].status.value) == Some(t.status)
  {
    s + [NewRow(id, owner, t)]
  }

  /** The rows a caller owns (`WHERE user_id = ?`). */
  predicate OwnedBy(t: Task, uid: int)
  {
    t.owner == uid
  }

  /** GET /tasks: the caller's rows, in table order. */
  function ListByOwner(s: Store, uid: int): (r: seq<Task>)
    ensures forall t :: t in r <==> t in s && t.owner == uid
    ensures forall t :: multiset(r)[t] == if t.owner == uid then multiset(s)[t] else 0
  {
    FilterMultiset(s, t => OwnedBy(t, uid));
    Filter(s, t => OwnedBy(t, uid))
  }

  /** The row `WHERE id=? AND user_id=?` selects. */
  predicate Targets(t: Task, id: int, uid: int)
  {
    t.id == id && t.owner == uid
  }

  /** A row with its six mutable columns replaced by the body's fields. */
  function Overwrite(t: Task, b: TaskBody): Task
  {
    Task(t.id, t.owner, b.title, b.description, b.priority, b.status, b.deadline, b.tags)
  }

  /** PUT /tasks/:id: overwrites all six mutable columns of the caller's row
      with that id with the raw body (no validation, absent fields become
      NULL), and leaves every other row as it was. Ids and owners never
      change. */
  function Update(s: Store, uid: int, id: int, b: TaskBody): (r: Store)
    ensures |r| == |s|
    ensures forall i :: 0 <= i < |s| ==> r[i].id == s[i].id && r[i].owner == s[i].owner
    ensures forall i :: 0 <= i < |s| && Targets(s[i], id, uid) ==>
      && r[i].title == b.title && r[i].description == b.description
      && r[i].priority == b.priority && r[i].status == b.status
      && r[i].deadline == b.deadline && r[i].tags == b.tags
    ensures forall i :: 0 <= i < |s| && !Targets(s[i], id, uid) ==> r[i] == s[i]
  {
    if |s| == 0 then []
    else
      var head := if Targets(s[0], id, uid) then Overwrite(s[0], b) else s[0];
      var rest := Update(s[1..], uid, id, b);
      assert forall i :: 1 <= i < |s| ==> ([head] + rest)[i] == rest[i - 1];
      [head] + rest
  }

  /** DELETE /tasks/:id: removes the caller's row with that id and keeps
      every other row, in order. */
  function Delete(s: Store, uid: int, id: int): (r: Store)
    ensures forall t :: t in r <==> t in s && !Targets(t, id, uid)
    ensures |r| <= |s|
  {
    Filter(s, t => !Targets(t, id, uid))
  }

  /** The optional query parameters of GET /tasks/search. */
  datatype Query = Query(q: Option<string>, status: Option<string>, priority: Option<string>)

  /** JavaScript truthiness of a query parameter: present and non-empty. */
  predicate Given(f: Option<string>)
  {
    f.Some? && f.value != ""
  }

  /** SQL `column LIKE '%q%'`; a NULL column never matches. */
  predicate ColumnContains(c: Option<string>, q: string)
  {
    c.Some? && Contains(c.value, q)
  }

  /** The extra WHERE conjuncts the search route appends, one per given
      parameter. */
  predicate Matches(t: Task, f: Query)
  {
    && (Given(f.q) ==> ColumnContains(t.title, f.q.value) || ColumnContains(t.description, f.q.value))
    && (Given(f.status) ==> t.status == f.status)
    && (Given(f.priority) ==> t.priority == f.priority)
  }

  /** GET /tasks/search: the caller's rows that satisfy every given
      filter, in table order. */
  function Search(s: Store, uid: int, f: Query): (r: seq<Task>)
    ensures forall t :: t in r <==> t in s && t.owner == uid && Matches(t, f)
  {
    Filter(s, t => OwnedBy(t, uid) && Matches(t, f))
  }

  // ---------------------------------------------------------------------
  // Properties of the routes

  /** A created row is the last row of its owner's list, and the owner's
      earlier rows are listed unchanged before it. */
  lemma CreateListsLast(s: Store, owner: int, id: int, t: NewTask)
    ensures ListByOwner(Create(s, owner, id, t), owner) == ListByOwner(s, owner) + [NewRow(id, owner, t)]
  {
    FilterAppend(s, [NewRow(id, owner, t)], t => OwnedBy(t, owner));
  }

  /** Creating a row for one user leaves every other user's list unchanged. */
  lemma CreateIsolation(s: Store, owner: int, id: int, t: NewTask, other: int)
    requires other != owner
    ensures ListByOwner(Create(s, owner, id, t), other) == ListByOwner(s, other)
  {
    FilterAppend(s, [NewRow(id, owner, t)], t => OwnedBy(t, other));
  }

  /** Create keeps ids unique when given a fresh one, and keeps every
      priority and status inside the `taskSchema` enums. */
  lemma CreateKeepsInvariants(s: Store, owner: int, id: int, t: NewTask)
    requires UniqueIds(s) && FreshId(s, id)
    ensures UniqueIds(Create(s, owner, id, t))
    ensures EnumsValid(s) ==> EnumsValid(Create(s, owner, id, t))
  {
  }

  /** An update whose id is unknown or belongs to someone else changes
      nothing. */
  lemma {:induction false} UpdateNoMatch(s: Store, uid: int, id: int, b: TaskBody)
    requires forall i :: 0 <= i < |s| ==> !Targets(s[i], id, uid)
    ensures Update(s, uid, id, b) == s
  {
  }

  /** Updating as one user leaves every other user's list unchanged. */
  lemma {:induction false} UpdateIsolation(s: Store, uid: int, id: int, b: TaskBody, other: int)
    requires other != uid
    ensures ListByOwner(Update(s, uid, id, b), other) == ListByOwner(s, other)
  {
    if |s| > 0 {
      UpdateIsolation(s[1..], uid, id, b, other);
      assert Update(s, uid, id, b)[1..] == Update(s[1..], uid, id, b);
    }
  }

  /** Update keeps ids unique (it never touches ids). */
  lemma UpdateKeepsUniqueIds(s: Store, uid: int, id: int, b: TaskBody)
    requires UniqueIds(s)
    ensures UniqueIds(Update(s, uid, id, b))
  {
  }

  /** Update is not validated: a body with an unknown status is written as
      is, so the `taskSchema` enums are not an invariant of the table. */
  lemma UpdateBreaksEnums()
    ensures var s := [NewRow(1, 7, NewTask("A", "", Low, Pending, 0, None))];
            var b := TaskBody(Some("A"), Some(""), Some("Low"), Some("Done"), Some(0), None);
            EnumsValid(s) && !EnumsValid(Update(s, 7, 1, b))
  {
    var s := [NewRow(1, 7, NewTask("A", "", Low, Pending, 0, None))];
    var b := TaskBody(Some("A"), Some(""), Some("Low"), Some("Done"), Some(0), None);
    assert Targets(s[0], 1, 7);
    var r := Update(s, 7, 1, b);
    assert r[0].status == Some("Done") && ParseStatus("Done").None?;
    assert r[0] in r && !EnumsOk(r[0]);
  }

  /** A delete whose id is unknown or belongs to someone else changes
      nothing. */
  lemma DeleteNoMatch(s: Store, uid: int, id: int)
    requires forall i :: 0 <= i < |s| ==> !Targets(s[i], id, uid)
    ensures Delete(s, uid, id) == s
  {
    FilterAll(s, t => !Targets(t, id, uid));
  }

  /** Filtering keeps ids unique. */
  lemma {:induction false} FilterKeepsUniqueIds(s: Store, p: Task -> bool)
    requires UniqueIds(s)
    ensures UniqueIds(Filter(s, p))
  {
    if |s| > 0 {
      FilterKeepsUniqueIds(s[1..], p);
      var rest := Filter(s[1..], p);
      if p(s[0]) {
        forall t | t in rest ensures t.id != s[0].id {
          var j :| 0 <= j < |s[1..]| && s[1..][j] == t;
          assert s[j + 1] == t;
        }
        var r := [s[0]] + rest;
        forall i, j | 0 <= i < j < |r| ensures r[i].id != r[j].id {
          if i == 0 {
            assert r[j] == rest[j - 1] && r[j] in rest;
          } else {
            assert r[i] == rest[i - 1] && r[j] == rest[j - 1];
          }
        }
      }
    }
  }

  /** With unique ids, deleting the caller's row at position `i` removes
      exactly that row and keeps the rest in order. */
  lemma DeleteExactlyOne(s: Store, uid: int, id: int, i: int)
    requires UniqueIds(s)
    requires 0 <= i < |s| && Targets(s[i], id, uid)
    ensures Delete(s, uid, id) == s[..i] + s[i + 1..]
  {
    FilterDropOne(s, i, t => !Targets(t, id, uid));
  }

  /** Deleting as one user leaves every other user's list unchanged. */
  lemma DeleteIsolation(s: Store, uid: int, id: int, other: int)
    requires other != uid
    ensures ListByOwner(Delete(s, uid, id), other) == ListByOwner(s, other)
  {
    FilterFilter(s, t => !Targets(t, id, uid), t => OwnedBy(t, other),
                 t => !Targets(t, id, uid) && OwnedBy(t, other));
    FilterSame(s, t => !Targets(t, id, uid) && OwnedBy(t, other), t => OwnedBy(t, other));
  }

  /** Delete keeps ids unique and the `taskSchema` enums in force. */
  lemma DeleteKeepsInvariants(s: Store, uid: int, id: int)
    ensures UniqueIds(s) ==> UniqueIds(Delete(s, uid, id))
    ensures EnumsValid(s) ==> EnumsValid(Delete(s, uid, id))
  {
    if UniqueIds(s) {
      FilterKeepsUniqueIds(s, t => !Targets(t, id, uid));
    }
  }

  /** Search is the caller's list narrowed by the filters. */
  lemma SearchWithinList(s: Store, uid: int, f: Query)
    ensures Search(s, uid, f) == Filter(ListByOwner(s, uid), t => Matches(t, f))
  {
    FilterFilter(s, t => OwnedBy(t, uid), t => Matches(t, f), t => OwnedBy(t, uid) && Matches(t, f));
  }

  /** With every filter absent or empty, search returns the caller's list. */
  lemma SearchNoFilters(s: Store, uid: int, f: Query)
    requires !Given(f.q) && !Given(f.status) && !Given(f.priority)
    ensures Search(s, uid, f) == ListByOwner(s, uid)
  {
    FilterSame(s, t => OwnedBy(t, uid) && Matches(t, f), t => OwnedBy(t, uid));
  }
}

=== FILE: users.dfy ===
/** The `users` table with POST /signup and POST /login. Hashing, password
    comparison, token signing and email-syntax checking are foreign calls
    and appear as parameters: `digest` is what `bcrypt.hash` produced,
    `compare` is `bcrypt.compare`, `sign` is `jwt.sign` with the server's
    secret, `isEmail` is zod's email check. */
module Users {
  import opened Results
  import opened Access

  /** One row of `users`; `digest` is the stored password hash. */
  datatype User = User(id: int, name: string, email: string, digest: string, role: string)

  type UserTable = seq<User>

  /** The UNIQUE key on `email`. */
  predicate UniqueEmails(us: UserTable)
  {
    forall i, j :: 0 <= i < j < |us| ==> us[i].email != us[j].email
  }

  /** Some row already uses `email`. */
  predicate EmailTaken(us: UserTable, email: string)
  {
    exists u :: u in us && u.email == email
  }

  /** The body of POST /signup after JSON parsing; `None` is a field the
      client left out. */
  datatype SignupRequest = SignupRequest(name: Option<string>, email: Option<string>,
                                         password: Option<string>, role: Option<string>)

  /** The failures of the two account routes. */
  datatype AccountError =
    | Invalid              // 400 {error: <zod message>}
    | EmailExists          // 400 {error: "Email already exists"}
    | InvalidCredentials   // 400 {message: "Invalid credentials"}

  /** `data.role || "user"`: a missing or empty role becomes "user"; any
      other string is kept as given. */
  function DefaultRole(role: Option<string>): (r: string)
    ensures role.Some? && role.value != "" ==> r == role.value
    ensures role.None? || role.value == "" ==> r == "user"
  {
    if role.Some? && role.value != "" then role.value else "user"
  }

  /** JavaScript's `.length` of a string, which zod's `min` checks: the
      number of UTF-16 code units, two for each character outside the
      Basic Multilingual Plane. */
  function Utf16Length(s: string): (n: nat)
    ensures |s| <= n <= 2 * |s|
    ensures n == |s| <==> forall i :: 0 <= i < |s| ==> (s[i] as int) < 0x1_0000
  {
    if |s| == 0 then 0
    else
      assert forall i :: 1 <= i < |s| ==> s[1..][i - 1] == s[i];
      (if (s[0] as int) < 0x1_0000 then 1 else 2) + Utf16Length(s[1..])
  }

  /** Three emoji are six code units, enough for `min(6)`. */
  lemma ThreeEmojiMeetMinimum()
    ensures Utf16Length("\U{1F600}\U{1F600}\U{1F600}") == 6
  {
    var e := "\U{1F600}\U{1F600}\U{1F600}";
    assert e[1..][1..][1..] == [];
  }

  /** What `signupSchema` demands: name, email and password present, a
      well-formed email, and a password of at least six UTF-16 code units;
      `role` is optional. */
  predicate SignupValid(req: SignupRequest, isEmail: string -> bool)
  {
    && req.name.Some? && req.email.Some? && req.password.Some?
    && isEmail(req.email.value) && Utf16Length(req.password.value) >= 6
  }

  /** POST /signup: a body `signupSchema` rejects is Invalid; a valid body
      whose email is already registered is EmailExists (the UNIQUE key);
      otherwise one user is appended with the body's name and email, the
      given digest and the defaulted role. */
  function Signup(us: UserTable, req: SignupRequest, id: int, digest: string,
                  isEmail: string -> bool): (r: Result<UserTable, AccountError>)
    ensures !SignupValid(req, isEmail) ==> r == Err(Invalid)
    ensures SignupValid(req, isEmail) ==> (r.Ok? <==> !EmailTaken(us, req.email.value))
    ensures SignupValid(req, isEmail) && r.Err? ==> r.error == EmailExists
    ensures r.Ok? ==> |r.value| == |us| + 1 && r.value[..|us|] == us
    ensures r.Ok? ==> var u := r.value[|us|];
      && u.id == id && Some(u.name) == req.name && Some(u.email) == req.email
      && u.digest == digest && u.role == DefaultRole(req.role)
  {
    if !SignupValid(req, isEmail) then Err(Invalid)
    else if EmailTaken(us, req.email.value) then Err(EmailExists)
    else Ok(us + [User(id, req.name.value, req.email.value, digest, DefaultRole(req.role))])
  }

  /** `SELECT * FROM users WHERE email = ?` followed by `result[0]`: the
      first row with that email, if any. */
  function FindByEmail(us: UserTable, email: string): (r: Option<User>)
    ensures r.Some? ==> r.value in us && r.value.email == email
    ensures r.None? <==> !EmailTaken(us, email)
  {
    if |us| == 0 then None
    else if us[0].email == email then Some(us[0])
    else
      assert forall u :: u in us ==> u == us[0] || u in us[1..];
      FindByEmail(us[1..], email)
  }

  /** What `loginSchema` demands: email and password present and the
      email well formed. */
  predicate LoginValid(email: Option<string>, password: Option<string>, isEmail: string -> bool)
  {
    email.Some? && password.Some? && isEmail(email.value)
  }

  /** POST /login: a body `loginSchema` rejects is Invalid; an unknown
      email and a wrong password give the same InvalidCredentials answer;
      otherwise the answer is a token signed over the user's id and role. */
  function Login(us: UserTable, email: Option<string>, password: Option<string>, isEmail: string -> bool,
                 compare: (string, string) -> bool, sign: Identity -> string): (r: Result<string, AccountError>)
    ensures !LoginValid(email, password, isEmail) ==> r == Err(Invalid)
    ensures LoginValid(email, password, isEmail) && r.Err? ==> r.error == InvalidCredentials
    ensures r.Ok? <==> LoginValid(email, password, isEmail) && FindByEmail(us, email.value).Some?
                       && compare(password.value, FindByEmail(us, email.value).value.digest)
    ensures r.Ok? ==> exists u :: u in us && Some(u.email) == email && compare(password.value, u.digest)
                                 && r.value == sign(Identity(u.id, u.role))
  {
    if !LoginValid(email, password, isEmail) then Err(Invalid)
    else
      match FindByEmail(us, email.value)
      case None => Err(InvalidCredentials)
      case Some(u) =>
        if !compare(password.value, u.digest) then Err(InvalidCredentials)
        else Ok(sign(Identity(u.id, u.role)))
  }

  /** With unique emails, the lookup finds the one row with that email. */
  lemma {:induction false} FindByEmailUnique(us: UserTable, i: int)
    requires UniqueEmails(us) && 0 <= i < |us|
    ensures FindByEmail(us, us[i].email) == Some(us[i])
  {
    if i > 0 {
      assert us[0].email != us[i].email;
      assert us[1..][i - 1] == us[i];
      FindByEmailUnique(us[1..], i - 1);
    }
  }

  /** Signup keeps emails unique. */
  lemma SignupKeepsUniqueEmails(us: UserTable, req: SignupRequest, id: int, digest: string,
                                isEmail: string -> bool)
    requires UniqueEmails(us)
    requires Signup(us, req, id, digest, isEmail).Ok?
    ensures UniqueEmails(Signup(us, req, id, digest, isEmail).value)
  {
    var r := Signup(us, req, id, digest, isEmail).value;
    forall i, j | 0 <= i < j < |r| ensures r[i].email != r[j].email {
      if j == |us| {
        assert r[i] == us[i] && us[i] in us;
      }
    }
  }

  /** After a successful signup, logging in with the same email and
      password (which `compare` accepts against the stored digest) returns
      a token signed over the new user's id and role. */
  lemma SignupThenLogin(us: UserTable, req: SignupRequest, id: int, digest: string,
                        isEmail: string -> bool, compare: (string, string) -> bool,
                        sign: Identity -> string)
    requires UniqueEmails(us)
    requires Signup(us, req, id, digest, isEmail).Ok?
    requires compare(req.password.value, digest)
    ensures Login(Signup(us, req, id, digest, isEmail).value, req.email, req.password, isEmail, compare, sign)
         == Ok(sign(Identity(id, DefaultRole(req.role))))
  {
    var r := Signup(us, req, id, digest, isEmail).value;
    SignupKeepsUniqueEmails(us, req, id, digest, isEmail);
    FindByEmailUnique(r, |us|);
  }

  /** The full round trip: when `verify` accepts what `sign` produced and
      the token has no space in it, a login token presented as
      "Bearer <token>" authenticates as the newly registered user. */
  lemma SignupLoginAuthenticate(us: UserTable, req: SignupRequest, id: int, digest: string,
                                isEmail: string -> bool, compare: (string, string) -> bool,
                                sign: Identity -> string, verify: string -> Option<Identity>)
    requires UniqueEmails(us)
    requires Signup(us, req, id, digest, isEmail).Ok?
    requires compare(req.password.value, digest)
    requires var who := Identity(id, DefaultRole(req.role));
             ' ' !in sign(who) && verify(sign(who)) == Some(who)
    ensures var token := Login(Signup(us, req, id, digest, isEmail).value, req.email, req.password,
                               isEmail, compare, sign).value;
            Authenticate(Some("Bearer " + token), verify) == Ok(Identity(id, DefaultRole(req.role)))
  {
    var who := Identity(id, DefaultRole(req.role));
    SignupThenLogin(us, req, id, digest, isEmail, compare, sign);
    HeaderTokenIsSecondWord("Bearer", sign(who), None);
    assert "Bearer " + sign(who) == "Bearer" + " " + sign(who);
  }
}
